=== FILE: README.md ===
# Terminal Tetris game engine, modelled in Dafny

This project models the game-state engine of a single-file terminal Tetris (`tetris_terminal.py`).
The game runs on a 10 x 20 board of 0/1 cells and has a falling piece drawn from seven shapes. The
model covers:

- the shape catalog and clockwise rotation;
- spawning a centred piece one row above the board;
- the collision test with its "what-if" overrides;
- merging a piece into the board, and clearing full rows;
- locking, with the score table and game-over detection;
- the drop distance used by the hard drop;
- the key and gravity handling of one iteration of the main loop, lifted into a pure transition.

Everything is immutable: boards and shapes are `seq<seq<int>>`, and `Piece` and `GameState` are
datatypes. As in the source, a non-zero cell is filled (Python truthiness).

Modules, one per component:

- `Shapes` (`shapes.dfy`): the catalog, the `Piece` record, and rotation, written as Python's
  `zip(*shape[::-1])`. Zip stops at the shortest row, so `Width` is the shortest row length.
- `Board` (`board.dfy`): `Collides`, which takes `Option` overrides for x, y and shape (module
  `Optional`); `Merge`; `ClearLines`. The nested loops of `collides` and `merge` are recursive
  functions that scan in the source's order. Their contracts relate them to a declarative statement
  over all occupied cells.
- `Engine` (`engine.dfy`): `GameState`, the invariant `Valid`, `NewPiece`, `LockPiece`,
  `DropDistance` and the hard drop.
- `Control` (`control.dfy`): keys, one loop iteration (`Step`), and the loop itself over a sequence
  of inputs (`Run`).

Inputs that come from outside the engine are parameters:

- `random.choice` becomes a `ShapeIndex`. One iteration can lock twice: once in the key phase and
  once in the gravity phase. So an `Input` carries two indices, `first` and `second`, one for each
  phase.
- The wall-clock test `now - tick >= delay` becomes the boolean `gravityDue`.
- The delay is a whole number of hundredths of a second. The floor is 5 and each step is 5, matching
  `MIN_DELAY` and the 0.05 s step.
- `getch` becomes a `Key`. `Other` stands for unrecognised keys and for no key at all.

Three behaviours of the code worth knowing:

- `clear_lines` has no upper bound on the rows it clears. The `IndexError` for more than four
  cleared rows is excluded by `LockPiece`'s precondition. `LockClearsAtMostHeight` proves the
  precondition always holds in play, because a board never has a full row before a lock.
- `drop_distance` returns the least `d` such that the piece collides at `y + d + 1`. For a piece
  that does not collide where it is, this is also the greatest drop it can make.
- The loop does not stop all locking at game over (see Findings).

## Model

| member | source | states |
|---|---|---|
| `Shapes.CatalogValid` | tetris_terminal.py:16-24 | each of the seven catalog shapes is a non-empty rectangle of at most 4 x 4 with an occupied cell, and its bottom row has an occupied cell |
| `Shapes.Width` | tetris_terminal.py:45 | the number of tuples `zip` yields: the shortest row length (0 for no rows), which is at most every row's length and equals one of them |
| `Shapes.WidthReverse` | tetris_terminal.py:45 | reversing the rows (`shape[::-1]`) does not change how many tuples `zip` yields |
| `Shapes.Rotate` | tetris_terminal.py:44-45 | rotation yields `Width(m)` rows of `|m|` entries, and output row j, column i is input cell (r-1-i, j): reversed rows, transposed |
| `Shapes.RotateRectangle` | tetris_terminal.py:44-45 | an r x c rectangle (r > 0) rotates to a c x r rectangle with `out[j][r-1-i] == in[i][j]` |
| `Shapes.RotateTwice` | tetris_terminal.py:44-45 | two rotations of a non-empty rectangle turn it upside down: cell (i, j) lands on (r-1-i, c-1-j) |
| `Shapes.RotateFour` | tetris_terminal.py:44-45 | four rotations return any rectangle with at least one row and one column to itself |
| `Shapes.RotateValid` | tetris_terminal.py:44-45 | rotating a valid piece shape (rectangle of 1..4 by 1..4 with an occupied cell) gives a valid piece shape |
| `Board.RowCollides` | tetris_terminal.py:60-67 | the column scan finds a blocked cell exactly when some occupied column from j on is outside the walls, below the floor, or on a filled visible cell |
| `Board.ShapeCollides` | tetris_terminal.py:59-68 | the row scan returns true exactly when some occupied cell from row i on is blocked |
| `Board.Collides` | tetris_terminal.py:54-68 | with omitted overrides replaced by the piece's own x, y and shape, the result is true iff some occupied cell is outside columns [0, 10), at row 20 or lower, or at a visible row on a filled board cell; cells above the board meet only the walls |
| `Board.DefaultOverrides` | tetris_terminal.py:55-57 | omitting the overrides is the same as passing the piece's own x, y and shape |
| `Board.NoHitFits` | tetris_terminal.py:64-65 | a placement that does not collide has every visible occupied cell on the board |
| `Board.MergeRow` | tetris_terminal.py:73-75 | merging one shape row sets exactly its occupied cells on a visible board row to 1 and leaves every other cell unchanged |
| `Board.MergeRows` | tetris_terminal.py:72-75 | merging shape rows i onward sets exactly their occupied visible cells to 1 and leaves every other cell unchanged |
| `Board.Merge` | tetris_terminal.py:71-75 | for a piece whose visible cells lie on the board, the result is a 20 x 10 board whose cell is 1 where the piece has an occupied cell and otherwise the old cell |
| `Board.MergeAbove` | tetris_terminal.py:74 | a piece whose rows all lie above the board fits, and merging it changes nothing |
| `Board.MergeOnlyFills` | tetris_terminal.py:71-75 | merging keeps the dimensions, never clears a filled cell, and sets every visible occupied piece cell to 1 |
| `Board.CountFull` | tetris_terminal.py:79-80 | the full-row count is at most the row count and is zero exactly when no row is full |
| `Board.Kept` | tetris_terminal.py:79 | the kept rows number the rows minus the full rows, none is full, they keep the board's width, and a board without full rows is kept whole |
| `Board.KeptOrigins` | tetris_terminal.py:79 | the kept rows are the board's rows at a strictly increasing list of indices, and that list holds exactly the indices of the non-full rows: the non-full rows in their original order |
| `Board.ClearLines` | tetris_terminal.py:78-84 | returns the number of full rows; the result is 20 rows of 10, the top `count` rows are empty, the rest are the non-full rows in order, no row is full, and with no full row the board is unchanged |
| `Engine.EmptyBoard` | tetris_terminal.py:143 | the starting board is 20 x 10 with every cell 0 |
| `Engine.NewPiece` | tetris_terminal.py:48-51 | the spawned piece has catalog shape k, y = -1, lies between the walls, and is centred: the left margin minus the right margin is the shape width mod 2 |
| `Engine.SpawnFits` | tetris_terminal.py:48-51 | a spawned piece has a valid shape and all its visible cells on the board, whatever the board holds |
| `Engine.SpawnOnEmptyBoard` | tetris_terminal.py:143 | a piece spawned on the empty board does not collide |
| `Engine.Init` | tetris_terminal.py:143 | the starting state satisfies the game invariant, has score 0 and line count 0, and is neither over nor paused (the record defaults of lines 38-41) |
| `Engine.LockPiece` | tetris_terminal.py:87-94 | adds the cleared row count to `lines`, adds 0/100/300/700/1500 for 0/1/2/3/4 rows to `score`, the board is the merged board with full rows cleared (so no full rows), the piece is a fresh spawn of shape k, `over` becomes true exactly when it was true or the new piece collides, and `paused` is kept |
| `Engine.CountFullBound` | tetris_terminal.py:79-80 | when every full row lies in [lo, hi), at most hi - lo rows are full |
| `Engine.MergeKeepsOtherRows` | tetris_terminal.py:71-75 | merging leaves every row outside the piece's rows unchanged |
| `Engine.LockClearsAtMostHeight` | tetris_terminal.py:88-91 | on a board with no full rows, locking clears at most as many rows as the piece is tall, so the table index at line 91 is in range |
| `Engine.LockValid` | tetris_terminal.py:87-94 | locking a piece whose visible cells lie on a board without full rows clears at most four rows and yields a state satisfying the invariant |
| `Engine.FreeAboveFloor` | tetris_terminal.py:64-65 | a shape with an occupied cell that does not collide has its top row above the floor, which bounds the probing loop |
| `Engine.DropFrom` | tetris_terminal.py:98-101 | the probing loop terminates; it returns d' >= d with the piece free at every row y+1 .. y+d' and colliding at y+d'+1 |
| `Engine.DropDistance` | tetris_terminal.py:97-101 | the piece does not collide at y+1 .. y+d and collides at y+d+1 |
| `Engine.DropDistanceUnique` | tetris_terminal.py:97-101 | any d with that property is the drop distance |
| `Engine.DropOnEmptyBoard` | tetris_terminal.py:97-101 | on the empty board a freshly spawned piece of height h falls 21 - h rows (20 for the I piece) |
| `Engine.DropLands` | tetris_terminal.py:97-101 | a piece that does not collide is still free after falling the drop distance, and blocked one row further |
| `Engine.DropPathFree` | tetris_terminal.py:97-101 | a piece that does not collide is free at its start row and at every row its drop passes |
| `Engine.Landing` | tetris_terminal.py:171 | the hard-dropped piece keeps its shape and column and lands exactly the drop distance lower; every row from the start down to the landing row is free, and one row lower collides |
| `Engine.HardDrop` | tetris_terminal.py:170-172 | a hard drop locks the piece at its landing place, within the score table, and keeps the invariant |
| `Control.SpeedUp` | tetris_terminal.py:154-155 | the sped-up delay is either the 0.05 s floor or the old delay minus 0.05 s; it is never below the floor, and it is the old delay minus 0.05 s whenever that is at least 0.10 s, so it is the larger of the two |
| `Control.Controls` | tetris_terminal.py:152-157 | only `paused` and the delay change; `paused` flips exactly on `p`; `+` and `=` set the delay to the sped-up delay (`SpeedUp`); `-` adds 0.05 s; other keys keep the delay |
| `Control.Move` | tetris_terminal.py:159-172 | keeps the invariant; keys other than space leave board, score, line count, pause flag and over flag alone, and only the up arrow (or space, through the new piece) changes the shape; space is the hard drop; non-moving keys change nothing |
| `Control.Commit` | tetris_terminal.py:160-169 | replacing the live piece with a non-colliding piece of valid shape keeps the invariant and changes nothing else |
| `Control.ShiftingCommitsOnlyLegal` | tetris_terminal.py:160-169 | left, right, rotate and soft drop commit their candidate exactly when it does not collide; otherwise the state is unchanged |
| `Control.Gravity` | tetris_terminal.py:177-180 | keeps the invariant and a set `over` flag; moves the piece down one row when that is free, and otherwise locks it |
| `Control.StepAsWritten` | tetris_terminal.py:148-180 | the iteration as the source has it keeps the invariant; returns on `q` with nothing changed; unless quitting or paused, it is the key phase (`Move` with the first shape) followed, whenever gravity is due, by the gravity phase (`Gravity` with the second shape); sets the delay as the control keys dictate; never lowers score or line count; when the game is paused after the control keys (pausing, or staying paused), the game is exactly the one the control keys left: the key and gravity phases are skipped |
| `Control.Step` | tetris_terminal.py:148-180 | keeps the invariant; returns on `q` with nothing changed; unless quitting or paused, it is the key phase (`Move` with the first shape) followed by the gravity phase (`Gravity` with the second shape) exactly when gravity is due and the key phase left the game running; never lowers score or line count; when the game is paused after the control keys (pausing, or staying paused), the game is exactly the one the control keys left: the key and gravity phases are skipped; the new delay is the one the control keys dictate |
| `Control.StepStopsAtGameOver` | tetris_terminal.py:147-180 | when the key phase ends the game, the iteration ends with exactly that state |
| `Control.StepShifts` | tetris_terminal.py:159-169 | unpaused with no gravity due, an arrow key moves or rotates the piece to its candidate when that does not collide, and otherwise leaves the game unchanged |
| `Control.StepFalls` | tetris_terminal.py:174-180 | unpaused with no key and gravity due, the piece falls one row when that row is free, and otherwise is locked (within the score table) with the second shape spawning |
| `Control.StepHardDrops` | tetris_terminal.py:170-172 | unpaused with space and no gravity due, the iteration is the hard drop with the first shape spawning |
| `Control.StepAgreesUnlessKeyPhaseEnds` | tetris_terminal.py:150-180 | the as-written and corrected iterations agree on `q`, while paused, and whenever the key phase leaves the game running, so they differ only in the case of the finding |
| `Control.Run` | tetris_terminal.py:143-180 | over any input sequence the invariant holds, score and line count never decrease, a game that is over stays exactly as it is, a run with no `q` never quits, and a quit happens only in a running game |
| `Control.RunSingle` | tetris_terminal.py:147-180 | a running game fed one input takes exactly one iteration of `Step` |
| `Control.RunAppend` | tetris_terminal.py:147-180 | running `a + b` is running `a`, then, unless that quit, running `b` from the state and delay `a` left |
| `Control.RunStaysOver` | tetris_terminal.py:147 | once a run has ended the game, any further inputs leave the result unchanged |
| `Control.WellStateValid` | tetris_terminal.py:48-51 | the I piece spawned over the well board satisfies the invariant |
| `Control.WellLanding` | tetris_terminal.py:97-101 | the I piece spawned over the well board cannot fall at all |
| `Control.WellMergeAbove` | tetris_terminal.py:74 | merging the I piece spawned over the well board changes nothing |
| `Control.WellSpawnCollides` | tetris_terminal.py:92-94 | the O piece spawned on the well board collides, so the lock sets `over` |
| `Control.WellHardDrop` | tetris_terminal.py:170-172 | hard-dropping the I piece there ends the game with no line cleared |
| `Control.WellMergeO` | tetris_terminal.py:71-84 | merging the O piece at its spawn position leaves exactly one full row |
| `Control.OverStateValid` | tetris_terminal.py:92-94 | the game-over state after that lock satisfies the invariant |
| `Control.WellSpawnCollidesBelow` | tetris_terminal.py:177 | one row down, the O piece is still blocked |
| `Control.WellGravityAfterOver` | tetris_terminal.py:177-180 | gravity on that finished game locks the O piece, clearing one row and scoring 100 |
| `Control.GravityAfterGameOver` | tetris_terminal.py:170-180 | from the same state and input, the source's iteration ends over with 1 line and 100 points; the corrected one ends over with 0 lines and 0 points |

## Findings

| source | as written | input that shows it | evidently intended | confidence | as-written member | corrected member |
|---|---|---|---|---|---|---|
| tetris_terminal.py:170-180 | a space-bar hard drop can lock and end the game (`over` set at line 94). The gravity branch at lines 174-180 then still runs in the same iteration, so a second piece is locked after game over and score and lines can change | the board `Control.WellBoard`: all 20 rows are `1111101111`; an I piece has just spawned; the key is space with gravity due; the next shapes are O, then any. The O spawn collides, and gravity locks it into row 0, which is cleared: lines 0 to 1, score 0 to 100, after `over` | once `over` is set, no further locking (the `while not state.over` guard at line 147); the gravity phase is skipped when the key phase ended the game | medium; not executed | `Control.StepAsWritten`, shown by `Control.GravityAfterGameOver` | `Control.Step`, with `Control.StepStopsAtGameOver` and `Control.StepAgreesUnlessKeyPhaseEnds` |

`Control.Run` iterates the corrected `Control.Step`.

## Left out

- `render` (lines 104-135): curses drawing. The ghost piece it draws is the drop distance, which is modelled.
- Input polling and timing (lines 139-148, 174-176): `getch` and `time.time()` become the `Key` and `gravityDue` inputs.
- The game-over screen and its blocking key wait (lines 184-187): presentation only. `Run` stops at game over.
- `parse_args`, `main` and the startup check on the delay (lines 190-204): argument parsing and process entry.
- `random.choice` (line 49): replaced by shape indices supplied with each input.
- Floating-point delays: the delay is modelled in whole hundredths, so a start delay that is not a multiple of 0.01 s is rounded.
- The deep copy in `new_piece` (line 49): values are immutable here, so a rotation can never change the catalog.
- Engine.LockPiece: requires at most four cleared rows. The source would raise `IndexError` on the score tuple otherwise. `Engine.LockClearsAtMostHeight` shows that case never arises in play.
- Board.Merge: requires every visible occupied cell to lie on the board. Outside it the source misbehaves in two ways, and neither is modelled. A negative column silently writes into the far end of the row through Python's negative indexing. A column of 10 or more, or a row of 20 or more, raises `IndexError` at line 75. Every call in the game meets the requirement.

=== FILE: board.dfy ===
/** The 10 x 20 board: collision test, merging a piece in, and clearing full rows. */
module Board {
  import opened Shapes
  import opened Optional

  const W: int := 10
  const H: int := 20

  /** Row-major board contents: row 0 is the top, a non-zero cell is filled. */
  type Grid = seq<seq<int>>

  predicate WellFormed(b: Grid) {
    |b| == H && Rectangular(b, W)
  }

  /**
   * A piece cell landing at column nx, row ny is stopped by the side walls, by the floor, or by a
   * filled board cell. Rows above the board (ny < 0) only meet the walls.
   */
  predicate Blocked(b: Grid, nx: int, ny: int)
    requires WellFormed(b)
  {
    nx < 0 || nx >= W || ny >= H || (ny >= 0 && b[ny][nx] != 0)
  }

  /** Some occupied cell of `s`, placed with its top-left corner at (px, py), is blocked. */
  ghost predicate Hits(b: Grid, s: Matrix, px: int, py: int)
    requires WellFormed(b)
  {
    exists i, j :: Occupied(s, i, j) && Blocked(b, px + j, py + i)
  }

  /** Every occupied cell of `s` at (px, py) that is on or below the top row lies on the board. */
  ghost predicate Fits(s: Matrix, px: int, py: int) {
    forall i, j :: Occupied(s, i, j) && py + i >= 0 ==> 0 <= px + j < W && py + i < H
  }

  /** The column scan of `collides` over one shape row from column j on. */
  function RowCollides(b: Grid, row: seq<int>, px: int, ny: int, j: nat): (r: bool)
    requires WellFormed(b) && j <= |row|
    ensures r <==> exists c :: j <= c < |row| && row[c] != 0 && Blocked(b, px + c, ny)
    decreases |row| - j
  {
    if j == |row| then false
    else if row[j] == 0 then RowCollides(b, row, px, ny, j + 1)
    else Blocked(b, px + j, ny) || RowCollides(b, row, px, ny, j + 1)
  }

  /** The row scan of `collides` from shape row i on. */
  function ShapeCollides(b: Grid, s: Matrix, px: int, py: int, i: nat): (r: bool)
    requires WellFormed(b) && i <= |s|
    ensures r <==> exists i', j :: i <= i' && Occupied(s, i', j) && Blocked(b, px + j, py + i')
    decreases |s| - i
  {
    if i == |s| then false
    else
      var here := RowCollides(b, s[i], px, py + i, 0);
      RowHit(b, s, px, py, i);
      here || ShapeCollides(b, s, px, py, i + 1)
  }

  /** A blocked cell found by the column scan of row i is an occupied, blocked cell of the shape. */
  lemma RowHit(b: Grid, s: Matrix, px: int, py: int, i: nat)
    requires WellFormed(b) && i < |s|
    ensures RowCollides(b, s[i], px, py + i, 0) ==> exists j :: Occupied(s, i, j) && Blocked(b, px + j, py + i)
  {
    if RowCollides(b, s[i], px, py + i, 0) {
      var c :| 0 <= c < |s[i]| && s[i][c] != 0 && Blocked(b, px + c, py + i);
      assert Occupied(s, i, c);
    }
  }

  /**
   * `collides`, the legality test behind every move: the piece, with its position and shape
   * optionally replaced by the overrides, has an occupied cell outside the side walls, below the
   * floor, or on a filled board cell.
   */
  function Collides(b: Grid, p: Piece, x: Option<int>, y: Option<int>, shape: Option<Matrix>): (r: bool)
    requires WellFormed(b)
    ensures r <==> Hits(b, shape.GetOr(p.shape), x.GetOr(p.x), y.GetOr(p.y))
  {
    var px := x.GetOr(p.x);
    var py := y.GetOr(p.y);
    var s := shape.GetOr(p.shape);
    ShapeCollides(b, s, px, py, 0)
  }

  /** Omitted overrides mean the piece's own position and shape. */
  lemma DefaultOverrides(b: Grid, p: Piece)
    requires WellFormed(b)
    ensures Collides(b, p, None, None, None) == Collides(b, p, Some(p.x), Some(p.y), Some(p.shape))
  {
  }

  /** A placement that does not collide lies within the walls and above the floor. */
  lemma {:induction false} NoHitFits(b: Grid, s: Matrix, px: int, py: int)
    requires WellFormed(b) && !Hits(b, s, px, py)
    ensures Fits(s, px, py)
  {
    forall i, j | Occupied(s, i, j) && py + i >= 0
      ensures 0 <= px + j < W && py + i < H
    {
      assert !Blocked(b, px + j, py + i);
    }
  }

  /** Fills visible cell (x, y). */
  function Fill(b: Grid, y: int, x: int): (r: Grid)
    requires WellFormed(b) && 0 <= y < H && 0 <= x < W
    ensures WellFormed(r)
    ensures forall y', x' :: 0 <= y' < H && 0 <= x' < W ==> r[y'][x'] == if y' == y && x' == x then 1 else b[y'][x']
  {
    b[y := b[y][x := 1]]
  }

  /** The column loop of `merge` over one shape row, landing on board row ny, from column j on. */
  function MergeRow(b: Grid, row: seq<int>, px: int, ny: int, j: nat): (r: Grid)
    requires WellFormed(b) && j <= |row|
    requires forall c :: j <= c < |row| && row[c] != 0 && ny >= 0 ==> 0 <= px + c < W && ny < H
    ensures WellFormed(r)
    ensures forall y, x :: 0 <= y < H && 0 <= x < W ==>
      r[y][x] == if y == ny && j <= x - px < |row| && row[x - px] != 0 then 1 else b[y][x]
    decreases |row| - j
  {
    if j == |row| then b
    else if row[j] != 0 && ny >= 0 then MergeRow(Fill(b, ny, px + j), row, px, ny, j + 1)
    else MergeRow(b, row, px, ny, j + 1)
  }

  /** The row loop of `merge` from shape row i on. */
  function MergeRows(b: Grid, s: Matrix, px: int, py: int, i: nat): (r: Grid)
    requires WellFormed(b) && i <= |s| && Fits(s, px, py)
    ensures WellFormed(r)
    ensures forall y, x :: 0 <= y < H && 0 <= x < W ==>
      r[y][x] == if i <= y - py && Occupied(s, y - py, x - px) then 1 else b[y][x]
    decreases |s| - i
  {
    if i == |s| then b
    else
      assert forall c :: 0 <= c < |s[i]| && s[i][c] != 0 && py + i >= 0 ==> Occupied(s, i, c);
      MergeRows(MergeRow(b, s[i], px, py + i, 0), s, px, py, i + 1)
  }

  /**
   * `merge`: the board with exactly the piece's occupied cells on visible rows set to 1 and every
   * other cell as before. The source writes through Python indexing, so it needs the visible cells
   * to lie on the board (a negative column would silently wrap); `Fits` states that need.
   */
  function Merge(b: Grid, p: Piece): (r: Grid)
    requires WellFormed(b) && Fits(p.shape, p.x, p.y)
    ensures WellFormed(r)
    ensures forall y, x :: 0 <= y < H && 0 <= x < W ==>
      r[y][x] == if Occupied(p.shape, y - p.y, x - p.x) then 1 else b[y][x]
  {
    MergeRows(b, p.shape, p.x, p.y, 0)
  }

  /** A piece whose rows all lie above the board fits, and merging it changes nothing (line 74's row guard). */
  lemma {:induction false} MergeAbove(b: Grid, p: Piece)
    requires WellFormed(b) && p.y + |p.shape| <= 0
    ensures Fits(p.shape, p.x, p.y)
    ensures Merge(b, p) == b
  {
    var merged := Merge(b, p);
    forall y | 0 <= y < H
      ensures merged[y] == b[y]
    {
      assert forall x :: 0 <= x < W ==> merged[y][x] == b[y][x];
    }
  }

  /** Merging only ever fills cells: a filled cell stays filled and the dimensions are kept. */
  lemma MergeOnlyFills(b: Grid, p: Piece)
    requires WellFormed(b) && Fits(p.shape, p.x, p.y)
    ensures WellFormed(Merge(b, p))
    ensures forall y, x :: 0 <= y < H && 0 <= x < W && b[y][x] != 0 ==> Merge(b, p)[y][x] != 0
    ensures forall i, j :: Occupied(p.shape, i, j) && p.y + i >= 0 ==> Merge(b, p)[p.y + i][p.x + j] == 1
  {
  }

  /** Python's `all(row)`. */
  predicate Full(row: seq<int>) {
    forall c :: 0 <= c < |row| ==> row[c] != 0
  }

  predicate NoFullRows(b: Grid) {
    forall i :: 0 <= i < |b| ==> !Full(b[i])
  }

  /** The number of full rows. */
  function CountFull(b: Grid): (n: nat)
    ensures n <= |b|
    ensures n == 0 <==> NoFullRows(b)
  {
    if |b| == 0 then 0
    else
      assert forall i :: 1 <= i < |b| ==> b[1..][i - 1] == b[i];
      (if Full(b[0]) then 1 else 0) + CountFull(b[1..])
  }

  /** `[row for row in board if not all(row)]`. */
  function Kept(b: Grid): (k: Grid)
    ensures |k| + CountFull(b) == |b|
    ensures NoFullRows(k)
    ensures forall w: nat :: Rectangular(b, w) ==> Rectangular(k, w)
    ensures NoFullRows(b) ==> k == b
  {
    if |b| == 0 then []
    else
      assert forall i :: 1 <= i < |b| ==> b[1..][i - 1] == b[i];
      assert forall w: nat :: Rectangular(b, w) ==> Rectangular(b[1..], w);
      (if Full(b[0]) then [] else [b[0]]) + Kept(b[1..])
  }

  /** Every index moved one place on. */
  function Shift(idx: seq<int>): (r: seq<int>)
    ensures |r| == |idx|
    ensures forall k :: 0 <= k < |r| ==> r[k] == idx[k] + 1
    ensures forall i :: i in r <==> i - 1 in idx
  {
    if |idx| == 0 then [] else [idx[0] + 1] + Shift(idx[1..])
  }

  /** `idx` lists, for each kept row, the index of the row of `b` it is. */
  ghost predicate Places(b: Grid, idx: seq<int>) {
    && |idx| == |Kept(b)|
    && forall k :: 0 <= k < |idx| ==> 0 <= idx[k] < |b| && Kept(b)[k] == b[idx[k]]
  }

  ghost predicate Increasing(idx: seq<int>) {
    forall k, l :: 0 <= k < l < |idx| ==> idx[k] < idx[l]
  }

  /** `idx` holds exactly the indices of the rows of `b` that are not full. */
  ghost predicate ListsNonFull(b: Grid, idx: seq<int>) {
    forall i :: 0 <= i < |b| ==> (!Full(b[i]) <==> i in idx)
  }

  /**
   * Where each kept row came from: a strictly increasing list of the indices of the non-full rows,
   * so the kept rows are exactly the non-full rows, in their original order.
   */
  function KeptOrigins(b: Grid): (idx: seq<int>)
    ensures Places(b, idx) && Increasing(idx) && ListsNonFull(b, idx)
  {
    if |b| == 0 then []
    else
      var rest := KeptOrigins(b[1..]);
      KeptOriginsPlaces(b, rest);
      KeptOriginsOrdered(b, rest);
      KeptOriginsComplete(b, rest);
      (if Full(b[0]) then [] else [0]) + Shift(rest)
  }

  /** One unfolding of `KeptOrigins`, first part: each index points at the row it stands for. */
  lemma KeptOriginsPlaces(b: Grid, rest: seq<int>)
    requires |b| > 0 && Places(b[1..], rest)
    ensures Places(b, (if Full(b[0]) then [] else [0]) + Shift(rest))
  {
    var tail := b[1..];
    var shifted := Shift(rest);
    var head: seq<int> := if Full(b[0]) then [] else [0];
    var kept := Kept(b);
    var r := head + shifted;
    assert kept == (if Full(b[0]) then [] else [b[0]]) + Kept(tail);
    forall k | 0 <= k < |r|
      ensures 0 <= r[k] < |b| && kept[k] == b[r[k]]
    {
      if k >= |head| {
        var k' := k - |head|;
        assert r[k] == rest[k'] + 1;
        assert kept[k] == Kept(tail)[k'];
      }
    }
  }

  /** One unfolding of `KeptOrigins`, second part: the indices stay strictly increasing. */
  lemma KeptOriginsOrdered(b: Grid, rest: seq<int>)
    requires |b| > 0 && Places(b[1..], rest) && Increasing(rest)
    ensures Increasing((if Full(b[0]) then [] else [0]) + Shift(rest))
  {
    var shifted := Shift(rest);
    var head: seq<int> := if Full(b[0]) then [] else [0];
    var r := head + shifted;
    forall k, l | 0 <= k < l < |r|
      ensures r[k] < r[l]
    {
      var l' := l - |head|;
      assert r[l] == shifted[l'] == rest[l'] + 1;
      if k >= |head| {
        var k' := k - |head|;
        assert r[k] == shifted[k'] == rest[k'] + 1;
        assert rest[k'] < rest[l'];
      } else {
        assert r[k] == 0 <= rest[l'];
      }
    }
  }

  /** One unfolding of `KeptOrigins`, third part: exactly the non-full rows are listed. */
  lemma KeptOriginsComplete(b: Grid, rest: seq<int>)
    requires |b| > 0 && Places(b[1..], rest) && ListsNonFull(b[1..], rest)
    ensures ListsNonFull(b, (if Full(b[0]) then [] else [0]) + Shift(rest))
  {
    var tail := b[1..];
    var shifted := Shift(rest);
    var head: seq<int> := if Full(b[0]) then [] else [0];
    var r := head + shifted;
    assert 0 !in shifted;
    forall i | 0 <= i < |b|
      ensures !Full(b[i]) <==> i in r
    {
      if i > 0 {
        assert tail[i - 1] == b[i];
        assert i in r <==> i in shifted;
      }
    }
  }

  /** An all-empty row. */
  function EmptyRow(): seq<int> {
    seq(W, _ => 0)
  }

  datatype Cleared = Cleared(board: Grid, count: nat)

  /**
   * `clear_lines`: removes every full row, pads the top with empty rows back to 20 rows, and returns
   * the number removed. The surviving rows keep their order (see `KeptOrigins`).
   */
  function ClearLines(b: Grid): (r: Cleared)
    requires WellFormed(b)
    ensures r.count == CountFull(b)
    ensures WellFormed(r.board)
    ensures forall i :: 0 <= i < r.count ==> r.board[i] == EmptyRow()
    ensures r.board[r.count..] == Kept(b)
    ensures NoFullRows(r.board)
    ensures r.count == 0 ==> r.board == b
  {
    var kept := Kept(b);
    var cleared := H - |kept|;
    var padding := seq(cleared, _ => EmptyRow());
    assert !Full(EmptyRow()) by { assert EmptyRow()[0] == 0; }
    assert (padding + kept)[cleared..] == kept;
    Cleared(padding + kept, cleared)
  }
}

=== FILE: control.dfy ===
/**
 * One iteration of the game loop as a pure transition: the key read in that iteration and whether
 * the gravity timer has expired are inputs, and so are the shapes the random source would pick.
 */
module Control {
  import opened Shapes
  import opened Optional
  import opened Board
  import opened Engine

  /**
   * The keys the loop reacts to. `Other` stands for every other key and for no key at all (the
   * poll timing out).
   */
  datatype Key = LeftArrow | RightArrow | UpArrow | DownArrow | Space | LetterP | Plus | Equals | Minus | LetterQ | Other

  /** What one iteration of the loop reads: a key, whether gravity is due, and the shapes spawned by a lock in the key phase and in the gravity phase. */
  datatype Input = Input(key: Key, gravityDue: bool, first: ShapeIndex, second: ShapeIndex)

  /** After an iteration the loop either returned on `q` or carries on with a new state and delay. */
  datatype Iteration = Quit(game: GameState, delay: nat) | Next(game: GameState, delay: nat)

  /** Gravity delays are counted in hundredths of a second: the floor is 0.05 s and each key press changes it by 0.05 s. */
  const MinDelay: nat := 5
  const DelayStep: nat := 5

  /** `+` or `=`: shorten the delay by one step, but never below the floor. */
  function SpeedUp(delay: nat): (r: nat)
    ensures r >= MinDelay
    ensures r == MinDelay || r == delay - DelayStep
    ensures delay >= MinDelay + DelayStep ==> r == delay - DelayStep
  {
    if delay < MinDelay + DelayStep then MinDelay else delay - DelayStep
  }

  /** The keys that move or rotate the live piece without locking it. */
  predicate Shifting(key: Key) {
    key == LeftArrow || key == RightArrow || key == UpArrow || key == DownArrow
  }

  /** The piece a shifting key asks for: one column left or right, rotated clockwise, or one row down. */
  function Candidate(p: Piece, key: Key): Piece
    requires Shifting(key)
  {
    match key
    case LeftArrow => p.(x := p.x - 1)
    case RightArrow => p.(x := p.x + 1)
    case UpArrow => p.(shape := Rotate(p.shape))
    case DownArrow => p.(y := p.y + 1)
  }

  /** Lines 152-157: `p` toggles the pause flag, `+`/`=` and `-` adjust the delay; nothing else changes. */
  function Controls(s: GameState, delay: nat, key: Key): (r: (GameState, nat))
    ensures r.0 == s.(paused := r.0.paused)
    ensures r.0.paused != s.paused <==> key == LetterP
    ensures key == Plus || key == Equals ==> r.1 == SpeedUp(delay)
    ensures key == Minus ==> r.1 == delay + DelayStep
    ensures key != Plus && key != Equals && key != Minus ==> r.1 == delay
  {
    match key
    case LetterP => (s.(paused := !s.paused), delay)
    case Plus => (s, SpeedUp(delay))
    case Equals => (s, SpeedUp(delay))
    case Minus => (s, delay + DelayStep)
    case _ => (s, delay)
  }

  /**
   * Lines 160-172: the key phase of an unpaused iteration. A shifting key commits its candidate only
   * when that does not collide; the space bar hard-drops and locks; other keys do nothing.
   */
  function Move(s: GameState, key: Key, k: ShapeIndex): (r: GameState)
    requires Valid(s) && !s.over
    ensures Valid(r)
    ensures key != Space ==> r.board == s.board && r.score == s.score && r.lines == s.lines && !r.over
    ensures key != Space ==> r.paused == s.paused
    ensures r.piece.shape != s.piece.shape ==> key == UpArrow || key == Space
    ensures key == Space ==> r == HardDrop(s, k)
    ensures !Shifting(key) && key != Space ==> r == s
  {
    var b, p := s.board, s.piece;
    match key
    case LeftArrow =>
      var moved := p.(x := p.x - 1);
      if !Collides(b, p, Some(p.x - 1), None, None) then Commit(s, moved) else s
    case RightArrow =>
      var moved := p.(x := p.x + 1);
      if !Collides(b, p, Some(p.x + 1), None, None) then Commit(s, moved) else s
    case UpArrow =>
      var rotated := Rotate(p.shape);
      RotateValid(p.shape);
      if !Collides(b, p, None, None, Some(rotated)) then Commit(s, p.(shape := rotated)) else s
    case DownArrow =>
      var moved := p.(y := p.y + 1);
      if !Collides(b, p, None, Some(p.y + 1), None) then Commit(s, moved) else s
    case Space => HardDrop(s, k)
    case _ => s
  }

  /** Replaces the live piece with a legal one. */
  function Commit(s: GameState, p: Piece): (r: GameState)
    requires Valid(s) && !s.over && ValidShape(p.shape) && !Collides(s.board, p, None, None, None)
    ensures Valid(r) && r.piece == p
    ensures r == s.(piece := r.piece)
  {
    NoHitFits(s.board, p.shape, p.x, p.y);
    s.(piece := p)
  }

  /** A shifting key moves the piece to its candidate exactly when the candidate does not collide; otherwise nothing changes. */
  lemma ShiftingCommitsOnlyLegal(s: GameState, key: Key, k: ShapeIndex)
    requires Valid(s) && !s.over && Shifting(key)
    ensures Collides(s.board, Candidate(s.piece, key), None, None, None) ==> Move(s, key, k) == s
    ensures !Collides(s.board, Candidate(s.piece, key), None, None, None) ==>
      Move(s, key, k) == s.(piece := Candidate(s.piece, key))
  {
  }

  /**
   * Lines 177-180 once the gravity timer has expired: the piece falls one row, or, when it cannot,
   * it is locked.
   */
  function Gravity(s: GameState, k: ShapeIndex): (r: GameState)
    requires Valid(s)
    ensures Valid(r)
    ensures s.over ==> r.over
    ensures CountFull(Merge(s.board, s.piece)) <= 4
    ensures Collides(s.board, s.piece, None, Some(s.piece.y + 1), None) ==> r == LockPiece(s, k)
    ensures !Collides(s.board, s.piece, None, Some(s.piece.y + 1), None) ==>
      r == s.(piece := s.piece.(y := s.piece.y + 1))
  {
    var b, p := s.board, s.piece;
    LockValid(s, k);
    if !Collides(b, p, None, Some(p.y + 1), None) then
      var moved := p.(y := p.y + 1);
      NoHitFits(b, moved.shape, moved.x, moved.y);
      s.(piece := moved)
    else
      LockPiece(s, k)
  }

  /**
   * One iteration of `main_loop` as the source has it (lines 148-180): after the key phase the
   * gravity phase runs whenever the timer has expired, even when a hard drop in the key phase has
   * just ended the game.
   */
  function StepAsWritten(s: GameState, delay: nat, input: Input): (r: Iteration)
    requires Valid(s) && !s.over
    ensures Valid(r.game)
    ensures var s1 := Controls(s, delay, input.key).0;
      input.key != LetterQ && !s1.paused ==>
        var s2 := Move(s1, input.key, input.first);
        && (input.gravityDue ==> r.game == Gravity(s2, input.second))
        && (!input.gravityDue ==> r.game == s2)
    ensures input.key == LetterQ <==> r.Quit?
    ensures r.Quit? ==> r.game == s && r.delay == delay
    ensures r.Next? ==> r.delay == Controls(s, delay, input.key).1
    ensures r.game.score >= s.score && r.game.lines >= s.lines
    ensures input.key != LetterQ && Controls(s, delay, input.key).0.paused ==> r.game == Controls(s, delay, input.key).0
  {
    if input.key == LetterQ then Quit(s, delay)
    else
      var (s1, d1) := Controls(s, delay, input.key);
      if s1.paused then Next(s1, d1)
      else
        var s2 := Move(s1, input.key, input.first);
        Next(if input.gravityDue then Gravity(s2, input.second) else s2, d1)
  }

  /**
   * One iteration of `main_loop` with the gravity phase skipped once the key phase has ended the
   * game, so nothing is locked after game over. Otherwise it is the iteration above.
   */
  function Step(s: GameState, delay: nat, input: Input): (r: Iteration)
    requires Valid(s) && !s.over
    ensures Valid(r.game)
    ensures var s1 := Controls(s, delay, input.key).0;
      input.key != LetterQ && !s1.paused ==>
        var s2 := Move(s1, input.key, input.first);
        && (input.gravityDue && !s2.over ==> r.game == Gravity(s2, input.second))
        && (!input.gravityDue || s2.over ==> r.game == s2)
    ensures input.key == LetterQ <==> r.Quit?
    ensures r.Quit? ==> r.game == s && r.delay == delay
    ensures r.game.score >= s.score && r.game.lines >= s.lines
    ensures input.key != LetterQ && Controls(s, delay, input.key).0.paused ==> r.game == Controls(s, delay, input.key).0
    ensures r.Next? ==> r.delay == Controls(s, delay, input.key).1
  {
    if input.key == LetterQ then Quit(s, delay)
    else
      var (s1, d1) := Controls(s, delay, input.key);
      if s1.paused then Next(s1, d1)
      else
        var s2 := Move(s1, input.key, input.first);
        Next(if input.gravityDue && !s2.over then Gravity(s2, input.second) else s2, d1)
  }

  /** Once the key phase has ended the game, the iteration ends with exactly that state. */
  lemma StepStopsAtGameOver(s: GameState, delay: nat, input: Input)
    requires Valid(s) && !s.over
    ensures var s1 := Controls(s, delay, input.key).0;
      input.key != LetterQ && !s1.paused && Move(s1, input.key, input.first).over ==>
        Step(s, delay, input).game == Move(s1, input.key, input.first) && Step(s, delay, input).game.over
  {
  }

  /**
   * The iteration as written and the corrected one differ only when an unpaused key phase ends the
   * game: on `q`, while paused, or when the key phase leaves the game running, they agree.
   */
  lemma StepAgreesUnlessKeyPhaseEnds(s: GameState, delay: nat, input: Input)
    requires Valid(s) && !s.over
    ensures var s1 := Controls(s, delay, input.key).0;
      input.key == LetterQ || s1.paused || !Move(s1, input.key, input.first).over ==>
        StepAsWritten(s, delay, input) == Step(s, delay, input)
  {
  }

  /** Lines 160-169, no gravity: a shifting key moves the piece to its candidate exactly when that does not collide. */
  lemma StepShifts(s: GameState, delay: nat, input: Input)
    requires Valid(s) && !s.over && !s.paused && Shifting(input.key) && !input.gravityDue
    ensures Collides(s.board, Candidate(s.piece, input.key), None, None, None) ==> Step(s, delay, input).game == s
    ensures !Collides(s.board, Candidate(s.piece, input.key), None, None, None) ==>
      Step(s, delay, input).game == s.(piece := Candidate(s.piece, input.key))
  {
    ShiftingCommitsOnlyLegal(s, input.key, input.first);
  }

  /** Lines 174-180 with no key: the piece falls one row when that row is free, and is locked otherwise. */
  lemma StepFalls(s: GameState, delay: nat, input: Input)
    requires Valid(s) && !s.over && !s.paused && input.key == Other && input.gravityDue
    ensures CountFull(Merge(s.board, s.piece)) <= 4
    ensures Collides(s.board, s.piece, None, Some(s.piece.y + 1), None) ==>
      Step(s, delay, input).game == LockPiece(s, input.second)
    ensures !Collides(s.board, s.piece, None, Some(s.piece.y + 1), None) ==>
      Step(s, delay, input).game == s.(piece := s.piece.(y := s.piece.y + 1))
  {
    StepIdleIsGravity(s, delay, input);
    var g := Gravity(s, input.second);
    assert Step(s, delay, input).game == g;
  }

  /** With no key, an unpaused iteration is the gravity phase alone. */
  lemma StepIdleIsGravity(s: GameState, delay: nat, input: Input)
    requires Valid(s) && !s.over && !s.paused && input.key == Other && input.gravityDue
    ensures Step(s, delay, input).game == Gravity(s, input.second)
  {
    assert Controls(s, delay, Other) == (s, delay);
    assert Move(s, Other, input.first) == s;
  }

  /** Lines 170-172, no gravity: the space bar hard-drops and locks the piece. */
  lemma StepHardDrops(s: GameState, delay: nat, input: Input)
    requires Valid(s) && !s.over && !s.paused && input.key == Space && !input.gravityDue
    ensures Step(s, delay, input).game == HardDrop(s, input.first)
  {
  }

  /**
   * The `while not state.over` loop over a sequence of inputs: it stops at game over, on `q`, or when
   * the inputs run out. The invariant holds throughout, score and line count never decrease, and a
   * game that is over stays exactly as it is.
   */
  function Run(s: GameState, delay: nat, inputs: seq<Input>): (r: Iteration)
    requires Valid(s)
    ensures Valid(r.game)
    ensures r.game.score >= s.score && r.game.lines >= s.lines
    ensures s.over ==> r == Next(s, delay)
    ensures (forall i :: 0 <= i < |inputs| ==> inputs[i].key != LetterQ) ==> r.Next?
    ensures r.Quit? ==> !r.game.over
    decreases |inputs|
  {
    if s.over || |inputs| == 0 then Next(s, delay)
    else
      match Step(s, delay, inputs[0])
      case Quit(g, d) => Quit(g, d)
      case Next(g, d) => Run(g, d, inputs[1..])
  }

  /** A running game fed one input takes exactly one iteration. */
  lemma RunSingle(s: GameState, delay: nat, input: Input)
    requires Valid(s) && !s.over
    ensures Run(s, delay, [input]) == Step(s, delay, input)
  {
    assert [input][1..] == [];
  }

  /** Feeding `a` and then `b` is running `a`, then running `b` from where `a` left off unless it quit. */
  lemma {:induction false} RunAppend(s: GameState, delay: nat, a: seq<Input>, b: seq<Input>)
    requires Valid(s)
    ensures var ra := Run(s, delay, a);
      Run(s, delay, a + b) == if ra.Quit? then ra else Run(ra.game, ra.delay, b)
    decreases |a|
  {
    if s.over {
    } else if |a| == 0 {
      assert a + b == b;
    } else {
      assert (a + b)[0] == a[0];
      assert (a + b)[1..] == a[1..] + b;
      match Step(s, delay, a[0])
      case Quit(g, d) =>
      case Next(g, d) => RunAppend(g, d, a[1..], b);
    }
  }

  /** Once a run has ended the game, no later input changes anything. */
  lemma RunStaysOver(s: GameState, delay: nat, a: seq<Input>, b: seq<Input>)
    requires Valid(s)
    ensures Run(s, delay, a).Next? && Run(s, delay, a).game.over ==> Run(s, delay, a + b) == Run(s, delay, a)
  {
    RunAppend(s, delay, a, b);
  }

  /** A row with a one-cell well in column 5. */
  const WellRow: seq<int> := [1, 1, 1, 1, 1, 0, 1, 1, 1, 1]

  /** Every row holds the well: the board waits for a vertical piece in column 5. */
  function WellBoard(): (b: Grid)
    ensures WellFormed(b) && NoFullRows(b)
    ensures forall y :: 0 <= y < H ==> b[y] == WellRow
  {
    assert !Full(WellRow) by { assert WellRow[5] == 0; }
    seq(H, _ => WellRow)
  }

  /** An I piece just spawned over the well board. */
  function WellState(): GameState {
    GameState(WellBoard(), NewPiece(0), 0, 0, false, false)
  }

  /** The well board with the O piece spawned on it and the game over. */
  function OverState(): GameState {
    GameState(WellBoard(), NewPiece(1), 0, 0, true, false)
  }

  /** The I piece spawned over the well board is a legal running state. */
  lemma WellStateValid()
    ensures Valid(WellState()) && !WellState().over
  {
    var s := WellState();
    var b := s.board;
    var i := s.piece;
    SpawnFits(0);
    assert i.x == 3 && i.shape == [[1, 1, 1, 1]];
    forall r, c | Occupied(i.shape, r, c)
      ensures !Blocked(b, i.x + c, i.y + r)
    {
    }
  }

  /** The I piece spawned over the well board cannot fall: one row down it covers filled column 3. */
  lemma {:induction false} WellLanding()
    ensures Valid(WellState()) && !WellState().over
    ensures Landing(WellState()) == WellState().piece
  {
    WellStateValid();
    var s := WellState();
    var b := s.board;
    var i := s.piece;
    assert i.x == 3 && i.shape == [[1, 1, 1, 1]];
    assert Blocked(b, i.x, i.y + 1) && Occupied(i.shape, 0, 0);
    var landed := Landing(s);
    if landed.y > i.y {
      assert Blocked(b, landed.x, landed.y) && Occupied(landed.shape, 0, 0);
    }
  }

  /** Merging the I piece while it is still above the board changes nothing. */
  lemma {:induction false} WellMergeAbove()
    ensures Fits(NewPiece(0).shape, NewPiece(0).x, NewPiece(0).y)
    ensures Merge(WellBoard(), NewPiece(0)) == WellBoard()
  {
    MergeAbove(WellBoard(), NewPiece(0));
  }

  /** The O piece spawns over filled column 4 of the well board, so it collides at once. */
  lemma {:induction false} WellSpawnCollides()
    ensures Collides(WellBoard(), NewPiece(1), None, None, None)
  {
    var b := WellBoard();
    var o := NewPiece(1);
    assert o.x == 4 && o.shape == [[1, 1], [1, 1]];
    assert Occupied(o.shape, 1, 0) && Blocked(b, o.x, o.y + 1);
  }

  /** Hard-dropping the I piece there locks it above the board, clears nothing, and the O piece spawned next ends the game. */
  lemma {:induction false} WellHardDrop()
    ensures Valid(WellState()) && !WellState().over
    ensures HardDrop(WellState(), 1) == OverState()
  {
    WellLanding();
    WellMergeAbove();
    WellSpawnCollides();
    var s := WellState();
    assert CountFull(WellBoard()) == 0;
    assert LockPiece(s, 1).board == WellBoard();
  }

  /** Merging the O piece at its spawn position fills the gap in row 0 and leaves the rows below alone. */
  lemma {:induction false} WellMergeO()
    ensures Fits(NewPiece(1).shape, NewPiece(1).x, NewPiece(1).y)
    ensures CountFull(Merge(WellBoard(), NewPiece(1))) == 1
  {
    SpawnFits(1);
    var b := WellBoard();
    var o := NewPiece(1);
    assert o.x == 4 && o.shape == [[1, 1], [1, 1]];
    var merged := Merge(b, o);
    assert Full(merged[0]) by {
      forall x | 0 <= x < W
        ensures merged[0][x] != 0
      {
        if x != 4 && x != 5 {
          assert merged[0][x] == WellRow[x];
        }
      }
    }
    forall y | 1 <= y < H
      ensures merged[y] == b[y]
    {
      MergeKeepsOtherRows(b, o, y);
    }
    assert NoFullRows(merged[1..]);
  }

  /** The game-over state satisfies the invariant. */
  lemma OverStateValid()
    ensures Valid(OverState())
  {
    SpawnFits(1);
  }

  /** Gravity on that finished game still locks the O piece: it completes row 0, which is cleared and scored. */
  lemma {:induction false} WellGravityAfterOver()
    ensures Valid(OverState())
    ensures var r := Gravity(OverState(), 0); r.over && r.lines == 1 && r.score == 100
  {
    OverStateValid();
    WellSpawnCollidesBelow();
    WellMergeO();
  }

  /** One row down, the O piece still covers filled column 4. */
  lemma WellSpawnCollidesBelow()
    ensures Collides(WellBoard(), NewPiece(1), None, Some(NewPiece(1).y + 1), None)
  {
    var o := NewPiece(1);
    assert o.x == 4 && o.shape == [[1, 1], [1, 1]];
    assert Occupied(o.shape, 0, 0) && Blocked(WellBoard(), o.x, o.y + 1);
  }

  /**
   * With gravity due in the iteration whose hard drop ends the game, the source locks the next
   * piece as well: line count and score change after game over. The corrected iteration stops at
   * the first lock.
   */
  lemma {:induction false} GravityAfterGameOver()
    ensures Valid(WellState()) && !WellState().over
    ensures var input := Input(Space, true, 1, 0);
      var asWritten := StepAsWritten(WellState(), 50, input).game;
      var corrected := Step(WellState(), 50, input).game;
      && asWritten.over && asWritten.lines == 1 && asWritten.score == 100
      && corrected.over && corrected.lines == 0 && corrected.score == 0
  {
    WellStepAsWritten();
    WellStepCorrected();
    WellGravityAfterOver();
  }

  /** In the source's iteration the hard drop ends the game and gravity then runs on the finished game. */
  lemma {:induction false} WellStepAsWritten()
    ensures Valid(WellState()) && !WellState().over && Valid(OverState())
    ensures StepAsWritten(WellState(), 50, Input(Space, true, 1, 0)).game == Gravity(OverState(), 0)
  {
    WellHardDrop();
    OverStateValid();
    var s := WellState();
    assert Controls(s, 50, Space) == (s, 50);
    assert Move(s, Space, 1) == OverState();
  }

  /** In the corrected iteration the same input ends with the game-over state of the hard drop. */
  lemma {:induction false} WellStepCorrected()
    ensures Valid(WellState()) && !WellState().over
    ensures Step(WellState(), 50, Input(Space, true, 1, 0)).game == OverState()
  {
    WellHardDrop();
    var s := WellState();
    assert Controls(s, 50, Space) == (s, 50);
    assert Move(s, Space, 1) == OverState();
  }
}

=== FILE: engine.dfy ===
/** The game state: spawning, locking with scoring and game-over detection, and the drop distance. */
module Engine {
  import opened Shapes
  import opened Optional
  import opened Board

  datatype GameState = GameState(board: Grid, piece: Piece, score: nat, lines: nat, over: bool, paused: bool)

  /** A board with every cell empty. */
  function EmptyBoard(): (b: Grid)
    ensures WellFormed(b)
    ensures forall y, x :: 0 <= y < H && 0 <= x < W ==> b[y][x] == 0
  {
    seq(H, _ => EmptyRow())
  }

  /**
   * `new_piece`: a fresh copy of catalog shape `k`, centred horizontally (the left margin equals
   * the right margin, or exceeds it by one for odd widths) and one row above the board.
   */
  function NewPiece(k: ShapeIndex): (p: Piece)
    ensures p.shape == Catalog[k] && p.y == -1
    ensures 0 <= p.x && p.x + |p.shape[0]| <= W
    ensures p.x - (W - p.x - |p.shape[0]|) == |p.shape[0]| % 2
    ensures ValidShape(p.shape) && BottomFilled(p.shape)
  {
    CatalogValid(k);
    var shape := Catalog[k];
    Piece(shape, W / 2 - |shape[0]| / 2, -1)
  }

  /** A freshly spawned piece lies inside the walls and above the floor, whatever the board holds. */
  lemma {:induction false} SpawnFits(k: ShapeIndex)
    ensures ValidShape(NewPiece(k).shape)
    ensures Fits(NewPiece(k).shape, NewPiece(k).x, NewPiece(k).y)
  {
    var p := NewPiece(k);
    forall i, j | Occupied(p.shape, i, j) && p.y + i >= 0
      ensures 0 <= p.x + j < W && p.y + i < H
    {
      assert |p.shape[i]| == |p.shape[0]|;
    }
  }

  /** A freshly spawned piece never collides on an empty board. */
  lemma {:induction false} SpawnOnEmptyBoard(k: ShapeIndex)
    ensures !Collides(EmptyBoard(), NewPiece(k), None, None, None)
  {
    var p := NewPiece(k);
    var b := EmptyBoard();
    SpawnFits(k);
    forall i, j | Occupied(p.shape, i, j)
      ensures !Blocked(b, p.x + j, p.y + i)
    {
      assert |p.shape[i]| == |p.shape[0]|;
    }
  }

  /**
   * The invariant of a running game: a well-formed board without full rows, a piece shape from the
   * rotations of the catalog whose visible cells are on the board, and, until the game is over, a
   * live piece that does not collide.
   */
  ghost predicate Valid(s: GameState) {
    && WellFormed(s.board)
    && NoFullRows(s.board)
    && ValidShape(s.piece.shape)
    && Fits(s.piece.shape, s.piece.x, s.piece.y)
    && (!s.over ==> !Collides(s.board, s.piece, None, None, None))
  }

  /**
   * The state `main_loop` starts from: an empty board and a fresh piece, with the record's defaults
   * of no score, no lines, not over and not paused. It satisfies the invariant.
   */
  function Init(k: ShapeIndex): (r: GameState)
    ensures Valid(r) && !r.over && !r.paused && r.score == 0 && r.lines == 0
  {
    SpawnFits(k);
    SpawnOnEmptyBoard(k);
    assert !Full(EmptyRow()) by { assert EmptyRow()[0] == 0; }
    GameState(EmptyBoard(), NewPiece(k), 0, 0, false, false)
  }

  /** The score table `(100, 300, 700, 1500)[cleared - 1]`, and nothing for no rows. */
  function LineScore(cleared: nat): nat
    requires cleared <= 4
  {
    if cleared == 0 then 0 else [100, 300, 700, 1500][cleared - 1]
  }

  /**
   * `lock_piece`: merge the piece, clear full rows, add them to the line count and their table
   * value to the score, spawn shape `k`, and set `over` when the new piece collides at once. The
   * source indexes a four-entry tuple, so it needs at most four rows to clear.
   */
  function LockPiece(s: GameState, k: ShapeIndex): (r: GameState)
    requires WellFormed(s.board) && Fits(s.piece.shape, s.piece.x, s.piece.y)
    requires CountFull(Merge(s.board, s.piece)) <= 4
    ensures var cleared := CountFull(Merge(s.board, s.piece));
      && r.lines == s.lines + cleared
      && (cleared == 0 ==> r.score == s.score)
      && (cleared == 1 ==> r.score == s.score + 100)
      && (cleared == 2 ==> r.score == s.score + 300)
      && (cleared == 3 ==> r.score == s.score + 700)
      && (cleared == 4 ==> r.score == s.score + 1500)
    ensures WellFormed(r.board) && NoFullRows(r.board)
    ensures r.board == ClearLines(Merge(s.board, s.piece)).board
    ensures r.piece == NewPiece(k)
    ensures r.over <==> s.over || Collides(r.board, r.piece, None, None, None)
    ensures r.paused == s.paused
  {
    var merged := Merge(s.board, s.piece);
    var cl := ClearLines(merged);
    var piece := NewPiece(k);
    var over := s.over || Collides(cl.board, piece, None, None, None);
    GameState(cl.board, piece, s.score + LineScore(cl.count), s.lines + cl.count, over, s.paused)
  }

  /** When every full row of `b` lies in [lo, hi), there are at most hi - lo of them. */
  lemma {:induction false} CountFullBound(b: Grid, lo: int, hi: int)
    requires lo <= hi
    requires forall i :: 0 <= i < |b| && Full(b[i]) ==> lo <= i < hi
    ensures CountFull(b) <= hi - lo
  {
    if |b| > 0 {
      var tail := b[1..];
      assert forall i :: 0 <= i < |tail| ==> tail[i] == b[i + 1];
      if Full(b[0]) {
        CountFullBound(tail, 0, hi - 1);
      } else {
        CountFullBound(tail, lo - 1, hi - 1);
      }
    }
  }

  /** Merging changes only the rows the piece spans. */
  lemma MergeKeepsOtherRows(b: Grid, p: Piece, y: int)
    requires WellFormed(b) && Fits(p.shape, p.x, p.y)
    requires 0 <= y < H && !(p.y <= y < p.y + |p.shape|)
    ensures Merge(b, p)[y] == b[y]
  {
    var m := Merge(b, p);
    assert forall x :: 0 <= x < W ==> m[y][x] == b[y][x];
  }

  /**
   * On a board without full rows, locking a piece clears at most as many rows as the piece is
   * tall, so at most four: the score table index stays in range.
   */
  lemma {:induction false} LockClearsAtMostHeight(b: Grid, p: Piece)
    requires WellFormed(b) && NoFullRows(b) && Fits(p.shape, p.x, p.y)
    ensures CountFull(Merge(b, p)) <= |p.shape|
  {
    var m := Merge(b, p);
    forall y | 0 <= y < |m| && Full(m[y])
      ensures p.y <= y < p.y + |p.shape|
    {
      if !(p.y <= y < p.y + |p.shape|) {
        MergeKeepsOtherRows(b, p, y);
      }
    }
    CountFullBound(m, p.y, p.y + |p.shape|);
  }

  /** A shape with an occupied cell is only free strictly above the floor row. */
  lemma {:induction false} FreeAboveFloor(b: Grid, s: Matrix, px: int, py: int)
    requires WellFormed(b) && HasCell(s)
    ensures !Hits(b, s, px, py) ==> py < H
  {
    var i, j :| Occupied(s, i, j);
    assert py >= H ==> Blocked(b, px + j, py + i);
  }

  /** The probing loop of `drop_distance`, having found rows y+1 .. y+d free. */
  function DropFrom(b: Grid, p: Piece, d: nat): (r: nat)
    requires WellFormed(b) && HasCell(p.shape)
    requires forall y :: p.y < y <= p.y + d ==> !Collides(b, p, None, Some(y), None)
    ensures r >= d
    ensures forall y :: p.y < y <= p.y + r ==> !Collides(b, p, None, Some(y), None)
    ensures Collides(b, p, None, Some(p.y + r + 1), None)
    decreases H - p.y - d
  {
    if Collides(b, p, None, Some(p.y + d + 1), None) then d
    else
      FreeAboveFloor(b, p.shape, p.x, p.y + d + 1);
      DropFrom(b, p, d + 1)
  }

  /**
   * `drop_distance`: the piece is free one to d rows further down and collides d + 1 rows down.
   * It is the least such d, and for a piece that does not collide where it is, the greatest drop
   * it can make.
   */
  function DropDistance(b: Grid, p: Piece): (d: nat)
    requires WellFormed(b) && HasCell(p.shape)
    ensures forall y :: p.y < y <= p.y + d ==> !Collides(b, p, None, Some(y), None)
    ensures Collides(b, p, None, Some(p.y + d + 1), None)
  {
    DropFrom(b, p, 0)
  }

  /** The drop distance is the only number with its defining property. */
  lemma DropDistanceUnique(b: Grid, p: Piece, d: nat)
    requires WellFormed(b) && HasCell(p.shape)
    requires forall y :: p.y < y <= p.y + d ==> !Collides(b, p, None, Some(y), None)
    requires Collides(b, p, None, Some(p.y + d + 1), None)
    ensures DropDistance(b, p) == d
  {
  }

  /** On an empty board a spawned piece falls 21 minus its height rows: an I piece falls 20. */
  lemma {:induction false} DropOnEmptyBoard(k: ShapeIndex)
    ensures DropDistance(EmptyBoard(), NewPiece(k)) == H + 1 - |Catalog[k]|
  {
    var b := EmptyBoard();
    var p := NewPiece(k);
    var h := |p.shape|;
    var d := H + 1 - h;
    CatalogValid(k);
    forall y | p.y < y <= p.y + d
      ensures !Collides(b, p, None, Some(y), None)
    {
      forall i, j | Occupied(p.shape, i, j)
        ensures !Blocked(b, p.x + j, y + i)
      {
        assert |p.shape[i]| == |p.shape[0]|;
      }
    }
    var last := p.shape[h - 1];
    var j :| 0 <= j < |last| && last[j] != 0;
    assert Occupied(p.shape, h - 1, j) && Blocked(b, p.x + j, p.y + d + 1 + h - 1);
    DropDistanceUnique(b, p, d);
  }

  /**
   * Where a hard drop puts the live piece: straight down by the drop distance, to a place where it
   * is free and from where it cannot move one row further.
   */
  function Landing(s: GameState): (p: Piece)
    requires WellFormed(s.board) && HasCell(s.piece.shape) && !Collides(s.board, s.piece, None, None, None)
    ensures p.shape == s.piece.shape && p.x == s.piece.x && p.y >= s.piece.y
    ensures !Collides(s.board, p, None, None, None)
    ensures Collides(s.board, p, None, Some(p.y + 1), None)
    ensures Fits(p.shape, p.x, p.y)
    ensures forall y :: s.piece.y <= y <= p.y ==> !Collides(s.board, s.piece, None, Some(y), None)
    ensures p.y == s.piece.y + DropDistance(s.board, s.piece)
  {
    var b, p := s.board, s.piece;
    var d := DropDistance(b, p);
    DropLands(b, p);
    DropPathFree(b, p);
    var dropped := p.(y := p.y + d);
    NoHitFits(b, dropped.shape, dropped.x, dropped.y);
    dropped
  }

  /** A piece that does not collide passes only through free rows on its way down by the drop distance. */
  lemma DropPathFree(b: Grid, p: Piece)
    requires WellFormed(b) && HasCell(p.shape) && !Collides(b, p, None, None, None)
    ensures forall y :: p.y <= y <= p.y + DropDistance(b, p) ==> !Collides(b, p, None, Some(y), None)
  {
    assert !Collides(b, p, None, Some(p.y), None);
  }

  /** A piece that does not collide is still free after falling its drop distance, and blocked one row further. */
  lemma DropLands(b: Grid, p: Piece)
    requires WellFormed(b) && HasCell(p.shape) && !Collides(b, p, None, None, None)
    ensures !Hits(b, p.shape, p.x, p.y + DropDistance(b, p))
    ensures Hits(b, p.shape, p.x, p.y + DropDistance(b, p) + 1)
  {
    var d := DropDistance(b, p);
    DropPathFree(b, p);
    assert !Collides(b, p, None, Some(p.y + d), None);
    ProbeRow(b, p, p.y + d);
    ProbeRow(b, p, p.y + d + 1);
  }

  /** Probing row y with a y override tests the piece's shape and column at that row. */
  lemma ProbeRow(b: Grid, p: Piece, y: int)
    requires WellFormed(b)
    ensures Collides(b, p, None, Some(y), None) == Hits(b, p.shape, p.x, y)
    ensures y == p.y ==> Collides(b, p, None, None, None) == Hits(b, p.shape, p.x, y)
  {
  }

  /** Hard drop (lines 170-172): lock the piece where it lands. */
  function HardDrop(s: GameState, k: ShapeIndex): (r: GameState)
    requires Valid(s) && !s.over
    ensures Valid(r)
    ensures CountFull(Merge(s.board, Landing(s))) <= 4
    ensures r == LockPiece(s.(piece := Landing(s)), k)
  {
    var landed := s.(piece := Landing(s));
    LockValid(landed, k);
    LockPiece(landed, k)
  }

  /** Locking from a state with no full rows stays within the score table and keeps the invariant. */
  lemma LockValid(s: GameState, k: ShapeIndex)
    requires WellFormed(s.board) && NoFullRows(s.board) && ValidShape(s.piece.shape)
    requires Fits(s.piece.shape, s.piece.x, s.piece.y)
    ensures CountFull(Merge(s.board, s.piece)) <= 4
    ensures Valid(LockPiece(s, k))
  {
    LockClearsAtMostHeight(s.board, s.piece);
    SpawnFits(k);
  }
}

=== FILE: optional.dfy ===
/** An optional value, used for the "what-if" overrides of the collision test. */
module Optional {

  datatype Option<+T> = None | Some(value: T) {

    /** The wrapped value, or `default` when there is none. */
    function GetOr(default: T): T {
      match this
      case Some(v) => v
      case None => default
    }
  }
}

=== FILE: shapes.dfy ===
/** The seven tetromino shapes, pieces, and clockwise rotation. */
module Shapes {

  /** A 0/1 occupancy matrix, listed row by row (row 0 is the top). */
  type Matrix = seq<seq<int>>

  /** The catalog: I, O, T, S, Z, J, L. */
  const Catalog: seq<Matrix> := [
    [[1, 1, 1, 1]],
    [[1, 1], [1, 1]],
    [[0, 1, 0], [1, 1, 1]],
    [[0, 1, 1], [1, 1, 0]],
    [[1, 1, 0], [0, 1, 1]],
    [[1, 0, 0], [1, 1, 1]],
    [[0, 0, 1], [1, 1, 1]]
  ]

  /** An index into the catalog: what a random choice among the shapes yields. */
  type ShapeIndex = k: nat | k < 7

  /** A shape placed on the board: (x, y) is the top-left corner of its bounding box. */
  datatype Piece = Piece(shape: Matrix, x: int, y: int)

  /** Cell (i, j) of the shape exists and is occupied (Python truthiness: non-zero). */
  predicate Occupied(m: Matrix, i: int, j: int) {
    0 <= i < |m| && 0 <= j < |m[i]| && m[i][j] != 0
  }

  ghost predicate HasCell(m: Matrix) {
    exists i, j :: Occupied(m, i, j)
  }

  /** The last row of `m` has an occupied cell. */
  ghost predicate BottomFilled(m: Matrix) {
    |m| > 0 && var last := m[|m| - 1]; exists j :: 0 <= j < |last| && last[j] != 0
  }

  /** Every row of `m` has exactly `cols` entries. */
  predicate Rectangular(m: Matrix, cols: nat) {
    forall i :: 0 <= i < |m| ==> |m[i]| == cols
  }

  /** The shapes a piece can have: a non-empty rectangle of at most 4 by 4 with an occupied cell. */
  ghost predicate ValidShape(m: Matrix) {
    && 1 <= |m| <= 4
    && 1 <= |m[0]| <= 4
    && Rectangular(m, |m[0]|)
    && HasCell(m)
  }

  /** The length of the shortest row, which is how many tuples Python's zip yields (0 for no rows). */
  function Width(m: Matrix): (w: nat)
    ensures forall i :: 0 <= i < |m| ==> w <= |m[i]|
    ensures |m| == 0 ==> w == 0
    ensures |m| > 0 ==> exists i :: 0 <= i < |m| && w == |m[i]|
  {
    if |m| == 0 then 0
    else if |m| == 1 then |m[0]|
    else
      var rest := Width(m[1..]);
      assert forall i :: 1 <= i < |m| ==> m[1..][i - 1] == m[i];
      if |m[0]| <= rest then |m[0]| else rest
  }

  /** The shortest row length is determined by the rows alone, whatever their order. */
  lemma WidthUnique(m: Matrix, w: nat)
    requires |m| > 0
    requires forall i :: 0 <= i < |m| ==> w <= |m[i]|
    requires exists i :: 0 <= i < |m| && w == |m[i]|
    ensures Width(m) == w
  {
  }

  /** Python's `shape[::-1]`. */
  function Reverse(m: Matrix): Matrix {
    seq(|m|, i requires 0 <= i < |m| => m[|m| - 1 - i])
  }

  /** Reversing the rows does not change the shortest row length. */
  lemma WidthReverse(m: Matrix)
    ensures Width(Reverse(m)) == Width(m)
  {
    var rev := Reverse(m);
    if |m| > 0 {
      var k :| 0 <= k < |m| && Width(m) == |m[k]|;
      assert rev[|m| - 1 - k] == m[k];
      WidthUnique(rev, Width(m));
    }
  }

  /** Python's `[list(row) for row in zip(*m)]`: zip stops at the shortest row. */
  function Transpose(m: Matrix): Matrix {
    seq(Width(m), j requires 0 <= j < Width(m) =>
      seq(|m|, i requires 0 <= i < |m| => m[i][j]))
  }

  /**
   * Clockwise rotation, transpose of the reversed rows. Cell (i, j) of an input with r rows
   * moves to (j, r - 1 - i); the output has as many rows as the input's shortest row.
   */
  function Rotate(m: Matrix): (out: Matrix)
    ensures |out| == Width(m)
    ensures forall j :: 0 <= j < |out| ==> |out[j]| == |m|
    ensures forall j, i :: 0 <= j < Width(m) && 0 <= i < |m| ==> out[j][i] == m[|m| - 1 - i][j]
  {
    WidthReverse(m);
    Transpose(Reverse(m))
  }

  /** Rotating a rectangle with r > 0 rows and c columns gives c rows of r columns: cell (i, j) goes to (j, r - 1 - i). */
  lemma RotateRectangle(m: Matrix, c: nat)
    requires |m| > 0 && Rectangular(m, c)
    ensures |Rotate(m)| == c && Rectangular(Rotate(m), |m|)
    ensures forall j, i :: 0 <= j < c && 0 <= i < |m| ==> Rotate(m)[j][i] == m[|m| - 1 - i][j]
    ensures forall i, j :: 0 <= i < |m| && 0 <= j < c ==> Rotate(m)[j][|m| - 1 - i] == m[i][j]
  {
    assert |m[0]| == c;
    WidthUnique(m, c);
    var out := Rotate(m);
    forall i, j | 0 <= i < |m| && 0 <= j < c
      ensures out[j][|m| - 1 - i] == m[i][j]
    {
      assert out[j][|m| - 1 - i] == m[|m| - 1 - (|m| - 1 - i)][j];
    }
  }

  /** Two clockwise rotations turn a rectangle upside down: cell (i, j) goes to (r-1-i, c-1-j). */
  lemma {:induction false} RotateTwice(m: Matrix, c: nat)
    requires |m| > 0 && c > 0 && Rectangular(m, c)
    ensures |Rotate(Rotate(m))| == |m| && Rectangular(Rotate(Rotate(m)), c)
    ensures forall i, j :: 0 <= i < |m| && 0 <= j < c ==> Rotate(Rotate(m))[i][j] == m[|m| - 1 - i][c - 1 - j]
  {
    var r := |m|;
    var m1 := Rotate(m);
    RotateRectangle(m, c);
    RotateRectangle(m1, r);
    var m2 := Rotate(m1);
    forall i, j | 0 <= i < r && 0 <= j < c
      ensures m2[i][j] == m[r - 1 - i][c - 1 - j]
    {
      // (i, j) of m2 came from (c - 1 - j, i) of m1, which came from (r - 1 - i, c - 1 - j) of m.
      assert m2[i][j] == m1[c - 1 - j][i];
    }
  }

  /** Four clockwise rotations give back any non-empty rectangle. */
  lemma {:induction false} RotateFour(m: Matrix, c: nat)
    requires |m| > 0 && c > 0 && Rectangular(m, c)
    ensures Rotate(Rotate(Rotate(Rotate(m)))) == m
  {
    RotateTwice(m, c);
    var m2 := Rotate(Rotate(m));
    RotateTwice(m2, c);
    var m4 := Rotate(Rotate(m2));
    assert |m4| == |m|;
    forall i | 0 <= i < |m|
      ensures m4[i] == m[i]
    {
      forall j | 0 <= j < c
        ensures m4[i][j] == m[i][j]
      {
        assert m4[i][j] == m2[|m| - 1 - i][c - 1 - j];
      }
    }
  }

  /** A rotated piece shape is still a piece shape. */
  lemma {:induction false} RotateValid(m: Matrix)
    requires ValidShape(m)
    ensures ValidShape(Rotate(m))
  {
    var c := |m[0]|;
    RotateRectangle(m, c);
    var out := Rotate(m);
    var i, j :| Occupied(m, i, j);
    assert out[j][|m| - 1 - i] == m[i][j];
    assert Occupied(out, j, |m| - 1 - i);
  }

  /** Every catalog shape is a valid piece shape whose bottom row has an occupied cell. */
  lemma CatalogValid(k: ShapeIndex)
    ensures ValidShape(Catalog[k])
    ensures BottomFilled(Catalog[k])
  {
    var m := Catalog[k];
    assert Occupied(m, |m| - 1, 1) && m[|m| - 1][1] != 0;
  }
}
